=== FILE: README.md ===
# EventApi ticketing core, modelled in Dafny

This project models the part of the EventApi Django backend that decides things.

- **Purchase.** The `purchase_tickets` view checks the caller's role, the requested quantity, that the event exists and that the seats fit. Then it records a Ticket and raises the event's `ticket_sold` counter.
- **Event creation.** The `create_event` view is open to Admins only. A new event starts with nothing sold, and event names are unique.
- **Authentication.** `extract_token` reads the `Authorization: Bearer <token>` header. `auth_api_func` turns the header into "authenticated with role R" or a 400 or 401 status. Every view maps that status to the same error reply.

The database is an immutable `Store`. It holds a map of users, a map of events, a sequence of tickets and the next value of each id sequence. Every handler is a pure function that returns an outcome and the new store. The module `Models` defines the invariant `Valid`:

- ids are issued by the sequences;
- event names and user emails are unique;
- every ticket points at a live user and a live event, and has a positive quantity;
- each event's `ticketSold` equals the seats its tickets record;
- no event is oversold.

Both handlers preserve `Valid`; a purchase does so when its buyer is an existing user, which Django's `IsAuthenticated` permission check guarantees for `request.user`. So does any sequence of such purchases.

Files:

- `wrappers.dfy`: `Option`.
- `http.dfy`: status codes and reply bodies.
- `models.dfy`: the tables, the store, the invariant and user insertion.
- `token.dfy`: whitespace splitting, the scheme test, `extract_token`, `check_user` and `auth_api_func`.
- `views.dfy`: the auth-failure reply, `create_event` and `purchase_tickets`.
- `views_properties.dfy`: properties that relate several calls.

Inputs taken as parameters:

- The JWT verification is the parameter `decode: string -> DecodeResult`. Its result is the `user_id` claim, `ExpiredSignature` or `InvalidToken`.
- The authenticated Django user (`request.user`) that owns a new ticket is the parameter `buyer`. It is a separate input from the JWT's user.
- Both views receive the result of `AuthApi` as the parameter `auth`, rather than computing it from the header.
- The request fields are `Option` values. `None` stands for a missing field.

Behaviour of the code that the model keeps as it is:

- A purchase by any role other than `User` is answered with 400.
- Roles are free strings and are compared exactly.
- `total_tickets` is never checked to be non-negative. The no-oversell invariant is therefore `ticketSold <= totalTickets || ticketSold == 0`: an event with negative capacity can sell nothing.
- A successful purchase reports the quantity bought.
- The purchase is a plain read-check-write with no lock. The model is one sequential step, and it claims nothing about concurrent requests.

## Model

| member | source | states |
|---|---|---|
| Models.NewUser | EventApi/api/models.py:5-8 | inserting a user fails exactly when the email is already taken and then changes nothing; otherwise one row is added under the next user id with the given email and the given role, or "Admin" when none is given; the user id counter advances by one, the event id counter never moves, and nothing else changes |
| Models.NewUserDefaultRole | EventApi/api/models.py:8 | a user created without a role has role "Admin" |
| Models.NewUserPreservesValid | EventApi/api/models.py:6-7 | the new user id is fresh and emails stay unique; every store invariant is kept |
| Models.SoldForAppend | EventApi/api/models.py:43-47 | recording one more ticket adds its quantity to its own event's seat total and to no other event's |
| Models.SoldForAbsent | EventApi/api/models.py:45-46 | an event no ticket points at has zero seats recorded |
| Models.EmptyStoreValid | EventApi/api/models.py:32-47 | the empty database satisfies every invariant |
| Token.Split | EventApi/api/token.py:18 | every part returned by whitespace splitting is non-empty and contains no whitespace |
| Token.SplitReassembles | EventApi/api/token.py:18 | splitting loses nothing but whitespace: putting the parts back between the dropped gaps gives the original header |
| Token.SplitGapsAreSpace | EventApi/api/token.py:18 | every dropped gap is whitespace, and every gap between two consecutive parts is non-empty, so the parts are the maximal whitespace-free runs |
| Token.SplitTwoWordsShape | EventApi/api/token.py:18-20 | a header that splits into two parts is optional whitespace, the first part, non-empty whitespace, the second part, optional whitespace |
| Token.SplitFrom | EventApi/api/token.py:18 | every part found from a given position on is non-empty and contains no whitespace |
| Token.SplitFromWord | EventApi/api/token.py:18 | whitespace, then a word, then whitespace or the end: that word is the next part and splitting continues after it |
| Token.SplitFromEnd | EventApi/api/token.py:18 | only whitespace is left: no more parts |
| Token.SplitTwoWords | EventApi/api/token.py:18 | two words separated by whitespace, with any leading or trailing whitespace, split into exactly those two words |
| Token.SplitThreeWords | EventApi/api/token.py:18 | three words separated by whitespace split into exactly those three words |
| Token.BearerSchemeCaseInsensitive | EventApi/api/token.py:20 | the scheme word is accepted if and only if it is "bearer" in some mix of upper and lower case |
| Token.ExtractToken | EventApi/api/token.py:15-22 | a token is found if and only if the header is present and splits into exactly two words, the first being "bearer" in any case; the token is the second word, so it is non-empty and has no whitespace |
| Token.ExtractTokenShape | EventApi/api/token.py:18-22 | a token is found only in a header made of optional whitespace, a bearer scheme in some case, non-empty whitespace, the token and optional whitespace |
| Token.ExtractTokenWellFormed | EventApi/api/token.py:15-22 | a header made of optional whitespace, a bearer scheme in any case, whitespace, a token and optional whitespace yields that token |
| Token.ExtractTokenRoundTrip | EventApi/api/token.py:18-22 | for any non-empty, whitespace-free t, extracting from "Bearer " + t gives back t |
| Token.ExtractTokenMissingHeader | EventApi/api/token.py:16-17 | a missing or empty header yields no token |
| Token.ExtractTokenUpperCaseScheme | EventApi/api/token.py:20 | "BEARER x" yields "x" |
| Token.ExtractTokenOneWord | EventApi/api/token.py:20-21 | any header that is a single word with optional whitespace around it yields no token |
| Token.ExtractTokenThreeWords | EventApi/api/token.py:20-21 | any header of three whitespace-separated words yields no token, whatever its first word |
| Token.ExtractTokenOtherScheme | EventApi/api/token.py:20-21 | any two-word header whose first word is not "bearer" in some case yields no token |
| Token.CheckUser | EventApi/api/token.py:7-12 | a role comes back if and only if the user id exists, and it is that user's role |
| Token.AuthApi | EventApi/api/token.py:24-46 | a request is authenticated (status 200 with the user's role) if and only if a token is found, it decodes to a user id, that user exists and has a non-empty role; no token gives 400, and every other failure gives 401 |
| Token.AuthDecodeFailure | EventApi/api/token.py:42-46 | a token that is expired or otherwise invalid gives 401 |
| Token.AuthUnknownUser | EventApi/api/token.py:34-39 | a valid token whose user does not exist, or has an empty role, gives 401 |
| Token.AuthKnownUser | EventApi/api/token.py:24-37 | "Bearer t", where t decodes to an existing user with a role, authenticates with status 200 and that role |
| Views.AuthFailureResponse | EventApi/api/views.py:108-112 | a failed authentication is answered with its own status and an "errors" message; the message is "Unauthenticated or token expired" exactly when the status is 401, otherwise "Authentication token not found" |
| Views.AuthFailureReplies | EventApi/api/views.py:197-202 | every authentication failure becomes either a 400 "Authentication token not found" (no token in the header) or a 401 "Unauthenticated or token expired" (a token was present) |
| Views.CreateResponse | EventApi/api/views.py:108-141 | a created event is answered 201 "Event created successfully", a non-Admin 403 "Permissions not allowed", a missing field or duplicate name 400 with an "error" entry, and an authentication failure keeps its own status |
| Views.CreateEvent | EventApi/api/views.py:97-141 | the full decision table, in the view's order: an unauthenticated request keeps its status; a non-Admin role is refused exactly when authenticated with another role; a missing field is refused exactly when an Admin omits one; a duplicate name is refused exactly when all fields are present and the name is in use; otherwise the event is created with the next id and ticket_sold 0, the event id counter advances by one, the user id counter stays, and nothing else changes; every failure leaves the store unchanged |
| Views.PurchaseResponse | EventApi/api/views.py:197-239 | a purchase is the only 200 and an unknown event the only 404; a purchase answers "msg": "success" and an unknown event "error": "Event not found"; a wrong role, a bad quantity and insufficient seats are 400 with their own "error" messages; an authentication failure keeps its own status |
| Views.PurchaseTickets | EventApi/api/views.py:185-243 | the checks run in the view's order: an unauthenticated request keeps its status; a wrong role, a bad quantity and an unknown event are refused exactly when the earlier checks pass and theirs fails; a request that passes all checks and fits is a purchase of that quantity; only a purchase changes the store, raising the event's counter by exactly the quantity within capacity and appending exactly one ticket (buyer, event, quantity), with every other event and the users unchanged; a rejection reports available = total - sold when sold + quantity > total |
| ViewsProperties.PurchaseRoleGate | EventApi/api/views.py:205-209 | any role other than exactly "User" is refused with 400 before quantity or event are looked at, and the store is unchanged |
| ViewsProperties.PurchaseQuantityGate | EventApi/api/views.py:213-215 | a missing, zero or negative quantity is refused with "Invalid quantity" (400) even for an unknown event, and the store is unchanged |
| ViewsProperties.PurchaseEventNotFound | EventApi/api/views.py:218-220 | a valid request for an unknown event is a 404 and the store is unchanged |
| ViewsProperties.PurchaseCapacityRule | EventApi/api/views.py:223-236 | a valid request succeeds if and only if sold + quantity <= total, and is rejected with available = total - sold if and only if sold + quantity > total |
| ViewsProperties.PurchaseBoundary | EventApi/api/views.py:223-225 | with 5 of 5 sold, buying 1 is rejected with 0 available; with 4 of 5 sold, buying 1 succeeds and the counter reaches 5 |
| ViewsProperties.TwoPurchasesInTurn | EventApi/api/views.py:223-236 | two requests for 6 of 10 free seats, served one after the other: the first buys 6 and the second is rejected with 4 available and changes nothing |
| ViewsProperties.PurchaseNeverLowersSold | EventApi/api/views.py:235-236 | no purchase removes an event or lowers any ticket_sold counter |
| ViewsProperties.PurchasePreservesValid | EventApi/api/views.py:214-236 | a purchase by an existing user keeps every invariant: no oversell, each counter equal to its tickets' quantities, every ticket pointing at an existing user and event |
| ViewsProperties.RunPurchasesPreservesValid | EventApi/api/views.py:185-243 | any sequence of purchases by existing users keeps every invariant, so no event is ever oversold and sold always equals the sum of its ticket quantities |
| ViewsProperties.CreateEventRoleGate | EventApi/api/views.py:119-120 | any role other than exactly "Admin" gets 403 "Permissions not allowed" and nothing is created |
| ViewsProperties.CreateEventDuplicateName | EventApi/api/views.py:129-141 | creating an event with a name already in use fails with 400 and changes nothing |
| ViewsProperties.CreateEventPreservesValid | EventApi/api/views.py:129-134 | event creation keeps every invariant; a created event has an id not used before and no tickets |
| ViewsProperties.CreateThenPurchase | EventApi/api/views.py:129-236 | a newly created event can be bought from at once, up to its full capacity |

## Left out

- Concurrency and atomicity. The view reads the event, checks it, then writes the ticket and the counter separately, with no lock or transaction. The model is one sequential step and claims nothing about interleaved requests.
- JWT signing and verification (`jwt.decode`). They are the `decode` parameter. A payload without a `user_id` claim raises an uncaught `KeyError`, which is not modelled.
- Password hashing, `signup_user`, `sign_in_user` and the serializers. These are library calls. User insertion is modelled only at the table level (`Models.NewUser`).
- `get_events`. It only lists and serializes events after the same authentication step.
- Routing, and the framework's own `IsAuthenticated` permission check that runs before each view.
- JSON formatting. The `comment` texts that embed numbers are not built. The outcomes carry the numbers (`NotEnoughTickets(available)`, `Purchased(quantity)`).
- The text of caught exceptions (`str(e)`). It is modelled only as an `ExceptionText` body.
- Storage failures caught by the generic `except Exception` branches.
- Non-integer quantities, such as strings, floats or booleans. The quantity is an `Option<int>`.
- Date parsing and validation. `event_date` is kept as opaque text, so only its presence matters. `purchase_date` is not modelled.
- Database column widths and integer ranges. `max_length` limits and the integer range of the backing database are not modelled: integers are unbounded here, and a value the database would refuse with an error (a 400) is accepted.
- Token.Lower: models `str.lower()` on ASCII letters only. This is exact for the one comparison made, with "bearer", because no other character lowercases to b, e, a or r.
- Views.CreateEvent: the date and the capacity are taken as they arrive. The database converts them when the row is saved, and that conversion is not modelled. A malformed `event_date` raises a validation error, which becomes a 400, but the model creates the event for any present date. A non-integer `total_tickets` is converted with `int()`: "12" is stored as 12 and 2.5 as 2, and "abc" gives a 400. The model takes an integer capacity.
- Models.NewUser: the unique `username` column inherited from Django's `AbstractUser` is not modelled, only the unique email. The signup serializer always sets the username to the email (EventApi/api/serializers.py:17), so on that path the two uniqueness constraints coincide.
- Views.CreateEvent: when several failures apply, the order in which the database reports a missing column and a duplicate name is fixed here as missing column first. Both are the same 400 reply, and only the exception text differs.

=== FILE: http.dfy ===
/** The HTTP status codes the views answer with, and the shape of their JSON replies. */
module Http {

  const OK: int := 200
  const CREATED: int := 201
  const BAD_REQUEST: int := 400
  const UNAUTHORIZED: int := 401
  const FORBIDDEN: int := 403
  const NOT_FOUND: int := 404

  /** A reply body: a one-entry JSON object `{key: text}`, or one that carries the
      text of a caught exception, whose wording is not modelled. */
  datatype Body = Json(key: string, text: string) | ExceptionText(key: string)

  datatype Response = Response(status: int, body: Body)
}

=== FILE: models.dfy ===
/** The three database tables of the application (User, Event, Ticket) and the
    store that holds them, with the invariants the ticketing logic keeps. */
module Models {
  import opened Wrappers

  /** Primary keys are auto-incremented integers starting at 1. */
  type UserId = int
  type EventId = int

  /** The role a User row receives when none is given. */
  const DEFAULT_ROLE: string := "Admin"

  /** A User row: `email` is the login name and is unique; `role` is free text. */
  datatype User = User(email: string, role: string)

  /** An Event row. `date` is kept as the text the client sent; whether the
      database accepts that text as a date is not modelled. */
  datatype Event = Event(name: string, date: string, totalTickets: int, ticketSold: int)

  /** A Ticket row: one purchase of `quantity` seats of `event` by `user`. */
  datatype Ticket = Ticket(user: UserId, event: EventId, quantity: int)

  /** The database: the three tables plus the next value of each id sequence. */
  datatype Store = Store(
    users: map<UserId, User>,
    nextUserId: UserId,
    events: map<EventId, Event>,
    nextEventId: EventId,
    tickets: seq<Ticket>)

  function EmptyStore(): Store {
    Store(map[], 1, map[], 1, [])
  }

  /** The number of seats that the tickets record for event `id`. */
  function SoldFor(tickets: seq<Ticket>, id: EventId): int {
    if |tickets| == 0 then 0
    else (if tickets[0].event == id then tickets[0].quantity else 0) + SoldFor(tickets[1..], id)
  }

  /** Recording one more ticket adds its quantity to its own event's total and to no other. */
  lemma {:induction false} SoldForAppend(tickets: seq<Ticket>, t: Ticket, id: EventId)
    ensures SoldFor(tickets + [t], id) == SoldFor(tickets, id) + (if t.event == id then t.quantity else 0)
  {
    if |tickets| == 0 {
      assert tickets + [t] == [t];
      assert [t][1..] == [];
    } else {
      assert (tickets + [t])[1..] == tickets[1..] + [t];
      SoldForAppend(tickets[1..], t, id);
    }
  }

  /** Tickets that all point at events other than `id` record no seats for it. */
  lemma {:induction false} SoldForAbsent(tickets: seq<Ticket>, id: EventId)
    requires forall i :: 0 <= i < |tickets| ==> tickets[i].event != id
    ensures SoldFor(tickets, id) == 0
  {
    if |tickets| > 0 {
      assert forall i :: 0 <= i < |tickets[1..]| ==> tickets[1..][i] == tickets[i + 1];
      SoldForAbsent(tickets[1..], id);
    }
  }

  /** The `unique=True` constraint on Event.name. */
  predicate UniqueNames(events: map<EventId, Event>) {
    forall a, b :: a in events && b in events && a != b ==> events[a].name != events[b].name
  }

  /** The `unique=True` constraint on User.email. */
  predicate UniqueEmails(users: map<UserId, User>) {
    forall a, b :: a in users && b in users && a != b ==> users[a].email != users[b].email
  }

  predicate NameTaken(events: map<EventId, Event>, name: string) {
    exists id :: id in events && events[id].name == name
  }

  predicate EmailTaken(users: map<UserId, User>, email: string) {
    exists id :: id in users && users[id].email == email
  }

  /** Every id handed out so far is positive and below the next one. */
  predicate IdsIssued(s: Store) {
    && 0 < s.nextUserId && 0 < s.nextEventId
    && (forall id :: id in s.users ==> 0 < id < s.nextUserId)
    && (forall id :: id in s.events ==> 0 < id < s.nextEventId)
  }

  /** The two foreign keys of every Ticket resolve, and its quantity is positive. */
  predicate TicketsWellFormed(s: Store) {
    forall i :: 0 <= i < |s.tickets| ==>
      && s.tickets[i].user in s.users
      && s.tickets[i].event in s.events
      && s.tickets[i].quantity > 0
  }

  /** Each event's `ticketSold` counter equals the seats its tickets record. */
  predicate SoldMatchesTickets(s: Store) {
    forall id :: id in s.events ==> s.events[id].ticketSold == SoldFor(s.tickets, id)
  }

  /** No event has sold past its capacity. An event created with a negative
      `totalTickets` (the views never reject one) can sell nothing at all. */
  predicate NoOversell(e: Event) {
    e.ticketSold <= e.totalTickets || e.ticketSold == 0
  }

  predicate Valid(s: Store) {
    && IdsIssued(s)
    && UniqueNames(s.events)
    && UniqueEmails(s.users)
    && TicketsWellFormed(s)
    && SoldMatchesTickets(s)
    && (forall id :: id in s.events ==> NoOversell(s.events[id]))
  }

  lemma EmptyStoreValid()
    ensures Valid(EmptyStore())
  {
  }

  /** Inserting a User row. A duplicate email violates the unique constraint and
      inserts nothing; a missing role takes the column default. */
  function NewUser(s: Store, email: string, role: Option<string>): (r: (Option<UserId>, Store))
    ensures r.0.None? <==> EmailTaken(s.users, email)
    ensures r.0.None? ==> r.1 == s
    ensures r.0.Some? ==>
      && r.1.users.Keys == s.users.Keys + {r.0.value}
      && r.1.users[r.0.value].email == email
      && r.1.users[r.0.value].role == (if role.Some? then role.value else DEFAULT_ROLE)
      && (forall id :: id in s.users && id != r.0.value ==> r.1.users[id] == s.users[id])
      && r.1.events == s.events && r.1.tickets == s.tickets
    ensures r.0.Some? ==> r.0.value == s.nextUserId && r.1.nextUserId == s.nextUserId + 1
    ensures r.1.nextEventId == s.nextEventId
  {
    if EmailTaken(s.users, email) then (None, s)
    else
      var id := s.nextUserId;
      (Some(id), s.(users := s.users[id := User(email, role.GetOr(DEFAULT_ROLE))], nextUserId := id + 1))
  }

  /** A User created without a role is an Admin. */
  lemma NewUserDefaultRole(s: Store, email: string)
    requires !EmailTaken(s.users, email)
    ensures var r := NewUser(s, email, None);
      r.0.Some? && r.1.users[r.0.value].role == "Admin"
  {
  }

  /** Inserting a User keeps every invariant: the new id is fresh and emails stay unique. */
  lemma NewUserPreservesValid(s: Store, email: string, role: Option<string>)
    requires Valid(s)
    ensures Valid(NewUser(s, email, role).1)
    ensures NewUser(s, email, role).0.Some? ==> NewUser(s, email, role).0.value !in s.users
  {
    var r := NewUser(s, email, role);
    if r.0.Some? {
      var s' := r.1;
      var id := r.0.value;
      assert id == s.nextUserId;
      assert id !in s.users;
      forall a, b | a in s'.users && b in s'.users && a != b
        ensures s'.users[a].email != s'.users[b].email
      {
        if a == id {
          assert b in s.users;
        } else if b == id {
          assert a in s.users;
        }
      }
    }
  }
}

=== FILE: token.dfy ===
/** Reading the `Authorization: Bearer <token>` header and deciding whether the
    request comes from a known user, and with which role. Verifying the JWT itself
    is not modelled: its outcome is an input (`decode`). */
module Token {
  import opened Wrappers
  import opened Http
  import opened Models

  // ---------------------------------------------------------------------------
  // Splitting on whitespace (Python's `str.split()` with no separator)
  // ---------------------------------------------------------------------------

  /** The characters for which Python's `str.isspace()` holds. */
  predicate IsSpace(c: char) {
    || c == ' ' || ('\t' <= c <= '\r') || ('\U{1C}' <= c <= '\U{1F}')
    || c == '\U{85}' || c == '\U{A0}' || c == '\U{1680}'
    || ('\U{2000}' <= c <= '\U{200A}')
    || c == '\U{2028}' || c == '\U{2029}' || c == '\U{202F}' || c == '\U{205F}' || c == '\U{3000}'
  }

  predicate NoSpace(s: string) {
    forall i :: 0 <= i < |s| ==> !IsSpace(s[i])
  }

  predicate AllSpace(s: string) {
    forall i :: 0 <= i < |s| ==> IsSpace(s[i])
  }

  /** A word: what `split()` can return, a non-empty run without whitespace. */
  predicate IsWord(w: string) {
    |w| > 0 && NoSpace(w)
  }

  /** The first index at or after `i` that does not hold whitespace, or the end. */
  function SkipSpace(s: string, i: nat): (j: nat)
    requires i <= |s|
    ensures i <= j <= |s|
    ensures j < |s| ==> !IsSpace(s[j])
    decreases |s| - i
  {
    if i == |s| || !IsSpace(s[i]) then i else SkipSpace(s, i + 1)
  }

  /** The first index at or after `i` that holds whitespace, or the end. */
  function SkipWord(s: string, i: nat): (j: nat)
    requires i <= |s|
    ensures i <= j <= |s|
    ensures j < |s| ==> IsSpace(s[j])
    ensures i < |s| && !IsSpace(s[i]) ==> i < j
    decreases |s| - i
  {
    if i == |s| || IsSpace(s[i]) then i else SkipWord(s, i + 1)
  }

  lemma {:induction false} SkipSpaceSpans(s: string, i: nat)
    requires i <= |s|
    ensures AllSpace(s[i..SkipSpace(s, i)])
    decreases |s| - i
  {
    if i < |s| && IsSpace(s[i]) {
      SkipSpaceSpans(s, i + 1);
      assert s[i..SkipSpace(s, i)] == [s[i]] + s[i + 1..SkipSpace(s, i + 1)];
    }
  }

  lemma {:induction false} SkipWordSpans(s: string, i: nat)
    requires i <= |s|
    ensures NoSpace(s[i..SkipWord(s, i)])
    decreases |s| - i
  {
    if i < |s| && !IsSpace(s[i]) {
      SkipWordSpans(s, i + 1);
      assert s[i..SkipWord(s, i)] == [s[i]] + s[i + 1..SkipWord(s, i + 1)];
    }
  }

  /** Whitespace from `i` to `j`, then a non-space or the end: the run ends at `j`. */
  lemma {:induction false} SkipSpaceTo(s: string, i: nat, j: nat)
    requires i <= j <= |s| && AllSpace(s[i..j])
    requires j == |s| || !IsSpace(s[j])
    ensures SkipSpace(s, i) == j
    decreases j - i
  {
    if i < j {
      assert s[i..j][0] == s[i];
      assert s[i + 1..j] == s[i..j][1..];
      SkipSpaceTo(s, i + 1, j);
    }
  }

  /** No whitespace from `i` to `j`, then whitespace or the end: the run ends at `j`. */
  lemma {:induction false} SkipWordTo(s: string, i: nat, j: nat)
    requires i <= j <= |s| && NoSpace(s[i..j])
    requires j == |s| || IsSpace(s[j])
    ensures SkipWord(s, i) == j
    decreases j - i
  {
    if i < j {
      assert s[i..j][0] == s[i];
      assert s[i + 1..j] == s[i..j][1..];
      SkipWordTo(s, i + 1, j);
    }
  }

  /** The maximal whitespace-free runs of `s` from index `i` on, in order. */
  function SplitFrom(s: string, i: nat): (parts: seq<string>)
    requires i <= |s|
    ensures forall m :: 0 <= m < |parts| ==> IsWord(parts[m])
    decreases |s| - i
  {
    var k := SkipSpace(s, i);
    if k == |s| then []
    else
      var e := SkipWord(s, k);
      SkipWordSpans(s, k);
      [s[k..e]] + SplitFrom(s, e)
  }

  /** Python's `s.split()`. */
  function Split(s: string): (parts: seq<string>)
    ensures forall m :: 0 <= m < |parts| ==> IsWord(parts[m])
  {
    SplitFrom(s, 0)
  }

  /** The whitespace that `SplitFrom` drops: the run before the first part, the
      runs between consecutive parts, and the run after the last. */
  function GapsFrom(s: string, i: nat): seq<string>
    requires i <= |s|
    decreases |s| - i
  {
    var k := SkipSpace(s, i);
    if k == |s| then [s[i..]]
    else
      var e := SkipWord(s, k);
      [s[i..k]] + GapsFrom(s, e)
  }

  function Gaps(s: string): seq<string> {
    GapsFrom(s, 0)
  }

  /** `gaps[0] + parts[0] + gaps[1] + ... + parts[m-1] + gaps[m]`. */
  function Interleave(gaps: seq<string>, parts: seq<string>): string
    requires |gaps| == |parts| + 1
    decreases |parts|
  {
    if |parts| == 0 then gaps[0] else gaps[0] + parts[0] + Interleave(gaps[1..], parts[1..])
  }

  lemma {:induction false} GapsFromLength(s: string, i: nat)
    requires i <= |s|
    ensures |GapsFrom(s, i)| == |SplitFrom(s, i)| + 1
    decreases |s| - i
  {
    var k := SkipSpace(s, i);
    if k < |s| {
      GapsFromLength(s, SkipWord(s, k));
    }
  }

  lemma InterleaveCons(g0: string, p0: string, gaps: seq<string>, parts: seq<string>)
    requires |gaps| == |parts| + 1
    ensures Interleave([g0] + gaps, [p0] + parts) == g0 + p0 + Interleave(gaps, parts)
  {
    assert ([g0] + gaps)[1..] == gaps && ([p0] + parts)[1..] == parts;
  }

  lemma SliceThree(s: string, i: nat, k: nat, e: nat)
    requires i <= k <= e <= |s|
    ensures s[i..] == s[i..k] + s[k..e] + s[e..]
  {
  }

  lemma {:induction false} SplitFromReassembles(s: string, i: nat)
    requires i <= |s|
    ensures |GapsFrom(s, i)| == |SplitFrom(s, i)| + 1
    ensures Interleave(GapsFrom(s, i), SplitFrom(s, i)) == s[i..]
    decreases |s| - i
  {
    GapsFromLength(s, i);
    var k := SkipSpace(s, i);
    if k < |s| {
      var e := SkipWord(s, k);
      SplitFromReassembles(s, e);
      assert GapsFrom(s, i) == [s[i..k]] + GapsFrom(s, e);
      assert SplitFrom(s, i) == [s[k..e]] + SplitFrom(s, e);
      InterleaveCons(s[i..k], s[k..e], GapsFrom(s, e), SplitFrom(s, e));
      SliceThree(s, i, k, e);
    }
  }

  /** Splitting loses nothing but whitespace: `s` is its parts put back
      between the gaps. */
  lemma SplitReassembles(s: string)
    ensures |Gaps(s)| == |Split(s)| + 1
    ensures Interleave(Gaps(s), Split(s)) == s
  {
    SplitFromReassembles(s, 0);
    assert s[0..] == s;
  }

  lemma {:induction false} SplitFromGapsAreSpace(s: string, i: nat)
    requires i <= |s|
    ensures forall m :: 0 <= m < |GapsFrom(s, i)| ==> AllSpace(GapsFrom(s, i)[m])
    ensures forall m :: 0 < m < |GapsFrom(s, i)| - 1 ==> |GapsFrom(s, i)[m]| > 0
    decreases |s| - i
  {
    var k := SkipSpace(s, i);
    SkipSpaceSpans(s, i);
    if k < |s| {
      var e := SkipWord(s, k);
      SplitFromGapsAreSpace(s, e);
      var g := GapsFrom(s, i);
      var rest := GapsFrom(s, e);
      assert g == [s[i..k]] + rest;
      if |rest| > 1 {
        // A part follows, so the word ended at whitespace, not at the end.
        assert SkipSpace(s, e) < |s|;
        assert e < |s| && IsSpace(s[e]);
        assert |rest[0]| > 0;
      }
      forall m | 0 < m < |g|
        ensures g[m] == rest[m - 1]
      {
      }
    } else {
      assert s[i..] == s[i..k];
    }
  }

  /** Splitting cuts only at whitespace: every gap is whitespace, and every gap
      between two parts is non-empty, so no part could be merged with the next. */
  lemma SplitGapsAreSpace(s: string)
    ensures forall m :: 0 <= m < |Gaps(s)| ==> AllSpace(Gaps(s)[m])
    ensures forall m :: 0 < m < |Gaps(s)| - 1 ==> |Gaps(s)[m]| > 0
  {
    SplitFromGapsAreSpace(s, 0);
  }

  /** A header that splits into two words is whitespace, word, whitespace, word, whitespace. */
  lemma SplitTwoWordsShape(s: string)
    requires |Split(s)| == 2
    ensures exists lead, sep, trail ::
      && AllSpace(lead) && AllSpace(sep) && |sep| > 0 && AllSpace(trail)
      && s == lead + Split(s)[0] + sep + Split(s)[1] + trail
  {
    SplitReassembles(s);
    SplitGapsAreSpace(s);
    var g := Gaps(s);
    var p := Split(s);
    assert Interleave(g, p) == g[0] + p[0] + (g[1] + p[1] + g[2]) by {
      assert Interleave(g[1..], p[1..]) == g[1] + p[1] + Interleave(g[2..], p[2..]);
      assert Interleave(g[2..], p[2..]) == g[2];
    }
    assert s == g[0] + p[0] + g[1] + p[1] + g[2];
  }

  /** Whitespace from `i` to `j`, a word from `j` to `e`, then whitespace or the
      end: that word is the next part and splitting goes on from `e`. */
  lemma SplitFromWord(s: string, i: nat, j: nat, e: nat)
    requires i <= j < e <= |s|
    requires AllSpace(s[i..j]) && NoSpace(s[j..e])
    requires e == |s| || IsSpace(s[e])
    ensures SplitFrom(s, i) == [s[j..e]] + SplitFrom(s, e)
  {
    assert s[j..e][0] == s[j];
    SkipSpaceTo(s, i, j);
    SkipWordTo(s, j, e);
  }

  /** Only whitespace from `i` on: no more parts. */
  lemma SplitFromEnd(s: string, i: nat)
    requires i <= |s| && AllSpace(s[i..])
    ensures SplitFrom(s, i) == []
  {
    assert s[i..|s|] == s[i..];
    SkipSpaceTo(s, i, |s|);
  }

  /** Two words separated by whitespace, with optional whitespace around them,
      split into exactly those two words. */
  lemma SplitTwoWords(lead: string, w1: string, sep: string, w2: string, trail: string)
    requires AllSpace(lead) && IsWord(w1) && AllSpace(sep) && |sep| > 0 && IsWord(w2) && AllSpace(trail)
    ensures Split(lead + w1 + sep + w2 + trail) == [w1, w2]
  {
    var s := lead + w1 + sep + w2 + trail;
    var a := |lead|;
    var b := a + |w1|;
    var c := b + |sep|;
    var d := c + |w2|;
    assert s[0..a] == lead && s[a..b] == w1 && s[b..c] == sep && s[c..d] == w2 && s[d..] == trail;
    assert s[b] == sep[0];
    SplitFromWord(s, 0, a, b);
    if d < |s| {
      assert s[d] == trail[0];
    }
    SplitFromWord(s, b, c, d);
    SplitFromEnd(s, d);
  }

  /** Three words separated by whitespace split into three parts. */
  lemma SplitThreeWords(w1: string, sep1: string, w2: string, sep2: string, w3: string)
    requires IsWord(w1) && IsWord(w2) && IsWord(w3)
    requires AllSpace(sep1) && |sep1| > 0 && AllSpace(sep2) && |sep2| > 0
    ensures Split(w1 + sep1 + w2 + sep2 + w3) == [w1, w2, w3]
  {
    var s := w1 + sep1 + w2 + sep2 + w3;
    var a := |w1|;
    var b := a + |sep1|;
    var c := b + |w2|;
    var d := c + |sep2|;
    assert s[0..0] == [] && s[0..a] == w1 && s[a..b] == sep1 && s[b..c] == w2;
    assert s[c..d] == sep2 && s[d..] == w3 && s[d..|s|] == w3;
    assert s[a] == sep1[0] && s[c] == sep2[0];
    SplitFromWord(s, 0, 0, a);
    SplitFromWord(s, a, b, c);
    SplitFromWord(s, c, d, |s|);
    SplitFromEnd(s, |s|);
  }

  // ---------------------------------------------------------------------------
  // The scheme word
  // ---------------------------------------------------------------------------

  function LowerChar(c: char): char {
    if 'A' <= c <= 'Z' then (c as int + 32) as char else c
  }

  /** Python's `str.lower()` on ASCII letters. No other character lowercases to
      one of `b`, `e`, `a`, `r`, so comparing the result with "bearer" is exact. */
  function Lower(s: string): string {
    seq(|s|, i requires 0 <= i < |s| => LowerChar(s[i]))
  }

  predicate IsBearerScheme(w: string) {
    Lower(w) == "bearer"
  }

  /** The scheme is accepted in any mix of upper and lower case, and in no other spelling. */
  lemma BearerSchemeCaseInsensitive(w: string)
    ensures IsBearerScheme(w) <==>
      |w| == 6 && forall i :: 0 <= i < 6 ==> w[i] == "bearer"[i] || w[i] == "BEARER"[i]
  {
    if |w| == 6 && forall i :: 0 <= i < 6 ==> w[i] == "bearer"[i] || w[i] == "BEARER"[i] {
      assert forall i :: 0 <= i < 6 ==> Lower(w)[i] == "bearer"[i];
    }
    if IsBearerScheme(w) {
      forall i | 0 <= i < 6
        ensures w[i] == "bearer"[i] || w[i] == "BEARER"[i]
      {
        assert LowerChar(w[i]) == "bearer"[i];
      }
    }
  }

  // ---------------------------------------------------------------------------
  // extract_token
  // ---------------------------------------------------------------------------

  /** The token of an `Authorization` header: a missing or empty header, a header
      that is not exactly two words, or one whose first word is not "bearer" in
      some case, has none. */
  function ExtractToken(header: Option<string>): (token: Option<string>)
    ensures token.Some? ==> IsWord(token.value)
    ensures token.Some? <==>
      header.Some? && |Split(header.value)| == 2 && IsBearerScheme(Split(header.value)[0])
    ensures token.Some? ==> token.value == Split(header.value)[1]
  {
    if header.None? || header.value == "" then None
    else
      var parts := Split(header.value);
      if |parts| != 2 || Lower(parts[0]) != "bearer" then None
      else Some(parts[1])
  }

  /** A token is found only in a header that is optional whitespace, a bearer
      scheme in some case, whitespace, the token, and optional whitespace. */
  lemma ExtractTokenShape(header: Option<string>)
    requires ExtractToken(header).Some?
    ensures exists lead, scheme, sep, trail ::
      && AllSpace(lead) && IsBearerScheme(scheme) && AllSpace(sep) && |sep| > 0 && AllSpace(trail)
      && header == Some(lead + scheme + sep + ExtractToken(header).value + trail)
  {
    SplitTwoWordsShape(header.value);
  }

  /** A well-formed header yields its token, whatever the whitespace and the case of the scheme. */
  lemma ExtractTokenWellFormed(lead: string, scheme: string, sep: string, t: string, trail: string)
    requires AllSpace(lead) && AllSpace(sep) && |sep| > 0 && AllSpace(trail)
    requires IsBearerScheme(scheme) && IsWord(t)
    ensures ExtractToken(Some(lead + scheme + sep + t + trail)) == Some(t)
  {
    assert |Lower(scheme)| == 6;
    assert IsWord(scheme) by {
      BearerSchemeCaseInsensitive(scheme);
    }
    SplitTwoWords(lead, scheme, sep, t, trail);
  }

  /** Round trip: the token put after "Bearer " is the token extracted. */
  lemma ExtractTokenRoundTrip(t: string)
    requires IsWord(t)
    ensures ExtractToken(Some("Bearer " + t)) == Some(t)
  {
    assert Lower("Bearer") == "bearer";
    assert "Bearer " + t == [] + "Bearer" + " " + t + [];
    ExtractTokenWellFormed([], "Bearer", " ", t, []);
  }

  /** A missing header and an empty one carry no token. */
  lemma ExtractTokenMissingHeader()
    ensures ExtractToken(None) == None
    ensures ExtractToken(Some("")) == None
  {
  }

  /** The scheme is matched ignoring case. */
  lemma ExtractTokenUpperCaseScheme()
    ensures ExtractToken(Some("BEARER x")) == Some("x")
  {
    assert Lower("BEARER") == "bearer";
    assert "BEARER x" == [] + "BEARER" + " " + "x" + [];
    ExtractTokenWellFormed([], "BEARER", " ", "x", []);
  }

  /** A header of one word, with any whitespace around it, carries no token. */
  lemma ExtractTokenOneWord(lead: string, w: string, trail: string)
    requires AllSpace(lead) && IsWord(w) && AllSpace(trail)
    ensures ExtractToken(Some(lead + w + trail)) == None
  {
    var s := lead + w + trail;
    var j, e := |lead|, |lead| + |w|;
    assert s[0..j] == lead && s[j..e] == w && s[e..] == trail;
    assert e < |s| ==> s[e] == trail[0];
    SplitFromWord(s, 0, j, e);
    SplitFromEnd(s, e);
  }

  /** A header of three words carries no token, whatever the first one is. */
  lemma ExtractTokenThreeWords(w1: string, sep1: string, w2: string, sep2: string, w3: string)
    requires IsWord(w1) && IsWord(w2) && IsWord(w3)
    requires AllSpace(sep1) && |sep1| > 0 && AllSpace(sep2) && |sep2| > 0
    ensures ExtractToken(Some(w1 + sep1 + w2 + sep2 + w3)) == None
  {
    SplitThreeWords(w1, sep1, w2, sep2, w3);
  }

  /** Two words whose first is not "bearer" in any case carry no token. */
  lemma ExtractTokenOtherScheme(lead: string, scheme: string, sep: string, t: string, trail: string)
    requires AllSpace(lead) && IsWord(scheme) && AllSpace(sep) && |sep| > 0 && IsWord(t) && AllSpace(trail)
    requires !IsBearerScheme(scheme)
    ensures ExtractToken(Some(lead + scheme + sep + t + trail)) == None
  {
    SplitTwoWords(lead, scheme, sep, t, trail);
  }

  // ---------------------------------------------------------------------------
  // check_user and auth_api_func
  // ---------------------------------------------------------------------------

  /** What verifying the JWT gives: the `user_id` claim, or one of the two failures caught. */
  datatype DecodeResult = Decoded(userId: int) | ExpiredSignature | InvalidToken

  /** `(True, (200, role))` or `(False, status)`. */
  datatype AuthResult = Authenticated(status: int, role: string) | Unauthenticated(status: int)

  /** The role of the user with this id, if there is one. */
  function CheckUser(users: map<UserId, User>, userId: int): (role: Option<string>)
    ensures role.Some? <==> userId in users
    ensures role.Some? ==> role.value == users[userId].role
  {
    if userId in users then Some(users[userId].role) else None
  }

  /** The authentication decision for a request carrying `header`. A role that
      is the empty string counts as no role, as Python's truth test does. */
  function AuthApi(header: Option<string>, decode: string -> DecodeResult, users: map<UserId, User>): (r: AuthResult)
    ensures ExtractToken(header).None? <==> r == Unauthenticated(BAD_REQUEST)
    ensures r.Unauthenticated? ==> r.status == BAD_REQUEST || r.status == UNAUTHORIZED
    ensures r.Authenticated? <==>
      && ExtractToken(header).Some?
      && decode(ExtractToken(header).value).Decoded?
      && decode(ExtractToken(header).value).userId in users
      && users[decode(ExtractToken(header).value).userId].role != ""
    ensures r.Authenticated? ==>
      r.status == OK && r.role == users[decode(ExtractToken(header).value).userId].role
  {
    var token := ExtractToken(header);
    if token.None? || token.value == "" then Unauthenticated(BAD_REQUEST)
    else
      match decode(token.value)
      case ExpiredSignature => Unauthenticated(UNAUTHORIZED)
      case InvalidToken => Unauthenticated(UNAUTHORIZED)
      case Decoded(userId) =>
        var role := CheckUser(users, userId);
        if role.Some? && role.value != "" then Authenticated(OK, role.value)
        else Unauthenticated(UNAUTHORIZED)
  }

  /** A token that fails verification, expired or otherwise invalid, is a 401. */
  lemma AuthDecodeFailure(header: Option<string>, decode: string -> DecodeResult, users: map<UserId, User>)
    requires ExtractToken(header).Some?
    requires !decode(ExtractToken(header).value).Decoded?
    ensures AuthApi(header, decode, users) == Unauthenticated(UNAUTHORIZED)
  {
  }

  /** A verified token for an unknown user, or for one whose role is empty, is a 401. */
  lemma AuthUnknownUser(header: Option<string>, decode: string -> DecodeResult, users: map<UserId, User>)
    requires ExtractToken(header).Some?
    requires decode(ExtractToken(header).value).Decoded?
    requires var id := decode(ExtractToken(header).value).userId;
      id !in users || users[id].role == ""
    ensures AuthApi(header, decode, users) == Unauthenticated(UNAUTHORIZED)
  {
  }

  /** `Bearer <t>` with a token naming a user who has a role authenticates as that role. */
  lemma AuthKnownUser(t: string, decode: string -> DecodeResult, users: map<UserId, User>)
    requires IsWord(t)
    requires decode(t).Decoded? && decode(t).userId in users
    requires users[decode(t).userId].role != ""
    ensures AuthApi(Some("Bearer " + t), decode, users) == Authenticated(OK, users[decode(t).userId].role)
  {
    ExtractTokenRoundTrip(t);
  }
}

=== FILE: views.dfy ===
/** The request handlers that change the store: event creation and ticket
    purchase, each preceded by the shared authentication step. */
module Views {
  import opened Wrappers
  import opened Http
  import opened Models
  import opened Token

  /** The reply every view sends when authentication fails. */
  function AuthFailureResponse(status: int): (resp: Response)
    ensures resp.status == status
    ensures resp.body.Json? && resp.body.key == "errors"
    ensures resp.body.text == "Unauthenticated or token expired" <==> status == UNAUTHORIZED
    ensures resp.body.text == "Authentication token not found" <==> status != UNAUTHORIZED
  {
    if status == UNAUTHORIZED then Response(status, Json("errors", "Unauthenticated or token expired"))
    else Response(status, Json("errors", "Authentication token not found"))
  }

  /** Every failure of the authentication step is answered either as a missing
      token (400) or as an unauthenticated request (401). */
  lemma AuthFailureReplies(header: Option<string>, decode: string -> DecodeResult, users: map<UserId, User>)
    requires AuthApi(header, decode, users).Unauthenticated?
    ensures var resp := AuthFailureResponse(AuthApi(header, decode, users).status);
      || (ExtractToken(header).None? && resp == Response(BAD_REQUEST, Json("errors", "Authentication token not found")))
      || (ExtractToken(header).Some? && resp == Response(UNAUTHORIZED, Json("errors", "Unauthenticated or token expired")))
  {
  }

  /** The result of a handler and the store it leaves behind. */
  datatype Step<O> = Step(outcome: O, next: Store)

  // ---------------------------------------------------------------------------
  // create_event
  // ---------------------------------------------------------------------------

  datatype CreateOutcome =
    | CreateUnauthenticated(status: int)
    | NotAdmin
    | MissingField      // a NOT NULL column left empty
    | DuplicateName     // the unique constraint on the name
    | Created(id: EventId)

  /** A created event is a 201, a non-Admin a 403, a rejected row a 400, and an
      authentication failure keeps its own status. */
  function CreateResponse(o: CreateOutcome): (r: Response)
    ensures o.CreateUnauthenticated? ==> r.status == o.status
    ensures o.Created? ==> r == Response(CREATED, Json("msg", "Event created successfully"))
    ensures o.NotAdmin? ==> r == Response(FORBIDDEN, Json("error", "Permissions not allowed"))
    ensures o.MissingField? || o.DuplicateName? ==> r.status == BAD_REQUEST && r.body.key == "error"
  {
    match o
    case CreateUnauthenticated(status) => AuthFailureResponse(status)
    case NotAdmin => Response(FORBIDDEN, Json("error", "Permissions not allowed"))
    case MissingField => Response(BAD_REQUEST, ExceptionText("error"))
    case DuplicateName => Response(BAD_REQUEST, ExceptionText("error"))
    case Created(_) => Response(CREATED, Json("msg", "Event created successfully"))
  }

  /** Creating an event named `name` on `date` with `totalTickets` seats. Only an
      Admin may; the new event has sold nothing; a failure changes nothing. */
  function CreateEvent(s: Store, auth: AuthResult, name: Option<string>, date: Option<string>,
                       totalTickets: Option<int>): (r: Step<CreateOutcome>)
    ensures !r.outcome.Created? ==> r.next == s
    ensures auth.Unauthenticated? ==> r.outcome == CreateUnauthenticated(auth.status)
    ensures r.outcome.NotAdmin? <==> auth.Authenticated? && auth.role != "Admin"
    ensures r.outcome.MissingField? <==>
      auth.Authenticated? && auth.role == "Admin" && (name.None? || date.None? || totalTickets.None?)
    ensures r.outcome.DuplicateName? <==>
      && auth.Authenticated? && auth.role == "Admin" && name.Some? && date.Some? && totalTickets.Some?
      && NameTaken(s.events, name.value)
    ensures (&& auth.Authenticated? && auth.role == "Admin" && name.Some? && date.Some? && totalTickets.Some?
             && !NameTaken(s.events, name.value))
      ==> r.outcome == Created(s.nextEventId)
    ensures r.outcome.Created? ==>
      && auth.Authenticated? && auth.role == "Admin"
      && name.Some? && date.Some? && totalTickets.Some?
      && !NameTaken(s.events, name.value)
      && r.next.events.Keys == s.events.Keys + {r.outcome.id}
      && r.next.events[r.outcome.id] == Event(name.value, date.value, totalTickets.value, 0)
      && (forall id :: id in s.events && id != r.outcome.id ==> r.next.events[id] == s.events[id])
      && r.next.users == s.users && r.next.tickets == s.tickets
    ensures r.outcome.Created? ==> r.next.nextUserId == s.nextUserId && r.next.nextEventId == s.nextEventId + 1
  {
    if auth.Unauthenticated? then Step(CreateUnauthenticated(auth.status), s)
    else if auth.role != "Admin" then Step(NotAdmin, s)
    else if name.None? || date.None? || totalTickets.None? then Step(MissingField, s)
    else if NameTaken(s.events, name.value) then Step(DuplicateName, s)
    else
      var id := s.nextEventId;
      var e := Event(name.value, date.value, totalTickets.value, 0);
      Step(Created(id), s.(events := s.events[id := e], nextEventId := id + 1))
  }

  // ---------------------------------------------------------------------------
  // purchase_tickets
  // ---------------------------------------------------------------------------

  datatype PurchaseOutcome =
    | PurchaseUnauthenticated(status: int)
    | NotUserRole
    | InvalidQuantity
    | EventNotFound
    | NotEnoughTickets(available: int)
    | Purchased(quantity: int)

  /** A purchase is the only 200 and an unknown event the only 404; every other
      refusal of the view itself is a 400 with an "error" message, and an
      authentication failure keeps its own status. */
  function PurchaseResponse(o: PurchaseOutcome): (r: Response)
    ensures o.PurchaseUnauthenticated? ==> r.status == o.status
    ensures !o.PurchaseUnauthenticated? ==> (r.status == OK <==> o.Purchased?)
    ensures !o.PurchaseUnauthenticated? ==> (r.status == NOT_FOUND <==> o.EventNotFound?)
    ensures o.NotUserRole? ==> r == Response(BAD_REQUEST, Json("error", "Permissions not allowed"))
    ensures o.InvalidQuantity? ==> r == Response(BAD_REQUEST, Json("error", "Invalid quantity"))
    ensures o.NotEnoughTickets? ==> r == Response(BAD_REQUEST, Json("error", "Not enough tickets available"))
    ensures o.EventNotFound? ==> r == Response(NOT_FOUND, Json("error", "Event not found"))
    ensures o.Purchased? ==> r == Response(OK, Json("msg", "success"))
  {
    match o
    case PurchaseUnauthenticated(status) => AuthFailureResponse(status)
    case NotUserRole => Response(BAD_REQUEST, Json("error", "Permissions not allowed"))
    case InvalidQuantity => Response(BAD_REQUEST, Json("error", "Invalid quantity"))
    case EventNotFound => Response(NOT_FOUND, Json("error", "Event not found"))
    case NotEnoughTickets(_) => Response(BAD_REQUEST, Json("error", "Not enough tickets available"))
    case Purchased(_) => Response(OK, Json("msg", "success"))
  }

  /** Python's `not quantity or quantity <= 0`: absent, zero or negative. */
  predicate BadQuantity(quantity: Option<int>) {
    quantity.None? || quantity.value <= 0
  }

  /** `buyer` buys `quantity` seats of event `eventId`. The checks run in order:
      authentication, role, quantity, lookup, capacity. Only a purchase changes
      the store: it records one ticket and raises the event's counter by its quantity. */
  function PurchaseTickets(s: Store, auth: AuthResult, buyer: UserId, eventId: EventId,
                           quantity: Option<int>): (r: Step<PurchaseOutcome>)
    ensures !r.outcome.Purchased? ==> r.next == s
    ensures auth.Unauthenticated? ==> r.outcome == PurchaseUnauthenticated(auth.status)
    ensures r.outcome.NotUserRole? <==> auth.Authenticated? && auth.role != "User"
    ensures r.outcome.InvalidQuantity? <==> auth.Authenticated? && auth.role == "User" && BadQuantity(quantity)
    ensures r.outcome.EventNotFound? <==>
      auth.Authenticated? && auth.role == "User" && !BadQuantity(quantity) && eventId !in s.events
    ensures (&& auth.Authenticated? && auth.role == "User" && !BadQuantity(quantity) && eventId in s.events
             && s.events[eventId].ticketSold + quantity.value <= s.events[eventId].totalTickets)
      ==> r.outcome == Purchased(quantity.value)
    ensures (&& auth.Authenticated? && auth.role == "User" && !BadQuantity(quantity) && eventId in s.events
             && s.events[eventId].ticketSold + quantity.value > s.events[eventId].totalTickets)
      ==> r.outcome == NotEnoughTickets(s.events[eventId].totalTickets - s.events[eventId].ticketSold)
    ensures r.outcome.NotEnoughTickets? ==>
      && eventId in s.events && quantity.Some? && quantity.value > 0
      && s.events[eventId].ticketSold + quantity.value > s.events[eventId].totalTickets
      && r.outcome.available == s.events[eventId].totalTickets - s.events[eventId].ticketSold
    ensures r.outcome.Purchased? ==>
      && auth.Authenticated? && auth.role == "User"
      && quantity == Some(r.outcome.quantity) && r.outcome.quantity > 0
      && eventId in s.events
      && r.next.events.Keys == s.events.Keys
      && r.next.events[eventId].ticketSold == s.events[eventId].ticketSold + r.outcome.quantity
      && r.next.events[eventId].ticketSold <= s.events[eventId].totalTickets
      && r.next.events[eventId] == s.events[eventId].(ticketSold := r.next.events[eventId].ticketSold)
      && (forall id :: id in s.events && id != eventId ==> r.next.events[id] == s.events[id])
      && r.next.tickets == s.tickets + [Ticket(buyer, eventId, r.outcome.quantity)]
      && r.next.users == s.users
      && r.next.nextUserId == s.nextUserId && r.next.nextEventId == s.nextEventId
  {
    if auth.Unauthenticated? then Step(PurchaseUnauthenticated(auth.status), s)
    else if auth.role != "User" then Step(NotUserRole, s)
    else if BadQuantity(quantity) then Step(InvalidQuantity, s)
    else if eventId !in s.events then Step(EventNotFound, s)
    else
      var e := s.events[eventId];
      var q := quantity.value;
      if e.ticketSold + q > e.totalTickets then
        Step(NotEnoughTickets(e.totalTickets - e.ticketSold), s)
      else
        var tickets := s.tickets + [Ticket(buyer, eventId, q)];
        var events := s.events[eventId := e.(ticketSold := e.ticketSold + q)];
        Step(Purchased(q), s.(tickets := tickets, events := events))
  }
}

=== FILE: views_properties.dfy ===
/** What the two handlers guarantee across calls: the order of the checks, the
    exact capacity boundary, and the store invariants every step keeps. */
module ViewsProperties {
  import opened Wrappers
  import opened Http
  import opened Models
  import opened Token
  import opened Views

  // ---------------------------------------------------------------------------
  // purchase_tickets: the gates, in order
  // ---------------------------------------------------------------------------

  /** Any role other than exactly "User" is refused with a 400, whatever the
      quantity or the event, and nothing changes. */
  lemma PurchaseRoleGate(s: Store, auth: AuthResult, buyer: UserId, eventId: EventId, quantity: Option<int>)
    requires auth.Authenticated? && auth.role != "User"
    ensures var r := PurchaseTickets(s, auth, buyer, eventId, quantity);
      r.outcome == NotUserRole && r.next == s && PurchaseResponse(r.outcome).status == BAD_REQUEST
  {
  }

  /** A missing, zero or negative quantity is refused before the event is looked
      up, so even for an unknown event, and nothing changes. */
  lemma PurchaseQuantityGate(s: Store, role: string, buyer: UserId, eventId: EventId, quantity: Option<int>)
    requires role == "User"
    requires quantity.None? || quantity.value <= 0
    ensures var r := PurchaseTickets(s, Authenticated(OK, role), buyer, eventId, quantity);
      r.outcome == InvalidQuantity && r.next == s
      && PurchaseResponse(r.outcome) == Response(BAD_REQUEST, Json("error", "Invalid quantity"))
  {
  }

  /** An unknown event is a 404 and nothing changes. */
  lemma PurchaseEventNotFound(s: Store, buyer: UserId, eventId: EventId, q: int)
    requires q > 0 && eventId !in s.events
    ensures var r := PurchaseTickets(s, Authenticated(OK, "User"), buyer, eventId, Some(q));
      r.outcome == EventNotFound && r.next == s && PurchaseResponse(r.outcome).status == NOT_FOUND
  {
  }

  /** The capacity rule, both ways: a valid request succeeds exactly when the
      seats fit, and is otherwise rejected with the seats still free. */
  lemma PurchaseCapacityRule(s: Store, buyer: UserId, eventId: EventId, q: int)
    requires q > 0 && eventId in s.events
    ensures var e := s.events[eventId];
      var r := PurchaseTickets(s, Authenticated(OK, "User"), buyer, eventId, Some(q));
      && (r.outcome.Purchased? <==> e.ticketSold + q <= e.totalTickets)
      && (r.outcome == NotEnoughTickets(e.totalTickets - e.ticketSold) <==> e.ticketSold + q > e.totalTickets)
      && (r.outcome.Purchased? ==> r.outcome.quantity == q)
  {
  }

  /** Filling the last seat succeeds; asking for one more than is left does not. */
  lemma PurchaseBoundary(s: Store, buyer: UserId, eventId: EventId, name: string, date: string)
    ensures var full := s.(events := s.events[eventId := Event(name, date, 5, 5)]);
      PurchaseTickets(full, Authenticated(OK, "User"), buyer, eventId, Some(1)).outcome == NotEnoughTickets(0)
    ensures var almost := s.(events := s.events[eventId := Event(name, date, 5, 4)]);
      var r := PurchaseTickets(almost, Authenticated(OK, "User"), buyer, eventId, Some(1));
      r.outcome == Purchased(1) && r.next.events[eventId].ticketSold == 5
  {
  }

  /** Two requests for 6 of 10 seats, one after the other: the first buys 6,
      the second is told 4 remain. */
  lemma TwoPurchasesInTurn(s: Store, a: UserId, b: UserId, eventId: EventId)
    requires eventId in s.events
    requires s.events[eventId].totalTickets == 10 && s.events[eventId].ticketSold == 0
    ensures var r1 := PurchaseTickets(s, Authenticated(OK, "User"), a, eventId, Some(6));
      var r2 := PurchaseTickets(r1.next, Authenticated(OK, "User"), b, eventId, Some(6));
      && r1.outcome == Purchased(6) && r1.next.events[eventId].ticketSold == 6
      && r2.outcome == NotEnoughTickets(4) && r2.next == r1.next
  {
  }

  /** No purchase lowers any counter or removes an event. */
  lemma PurchaseNeverLowersSold(s: Store, auth: AuthResult, buyer: UserId, eventId: EventId, quantity: Option<int>)
    ensures var r := PurchaseTickets(s, auth, buyer, eventId, quantity);
      forall id :: id in s.events ==>
        id in r.next.events && r.next.events[id].ticketSold >= s.events[id].ticketSold
  {
  }

  // ---------------------------------------------------------------------------
  // purchase_tickets: the store invariants
  // ---------------------------------------------------------------------------

  /** A purchase by an existing user keeps every invariant: no oversell, each
      counter equal to its tickets' seats, every ticket pointing at live rows. */
  lemma PurchasePreservesValid(s: Store, auth: AuthResult, buyer: UserId, eventId: EventId, quantity: Option<int>)
    requires Valid(s) && buyer in s.users
    ensures Valid(PurchaseTickets(s, auth, buyer, eventId, quantity).next)
  {
    var r := PurchaseTickets(s, auth, buyer, eventId, quantity);
    if r.outcome.Purchased? {
      var s' := r.next;
      var t := Ticket(buyer, eventId, r.outcome.quantity);
      assert s'.tickets == s.tickets + [t];
      forall id | id in s'.events
        ensures s'.events[id].ticketSold == SoldFor(s'.tickets, id)
      {
        SoldForAppend(s.tickets, t, id);
      }
      forall i | 0 <= i < |s'.tickets|
        ensures s'.tickets[i].user in s'.users && s'.tickets[i].event in s'.events && s'.tickets[i].quantity > 0
      {
        if i < |s.tickets| {
          assert s'.tickets[i] == s.tickets[i];
        }
      }
      forall a, b | a in s'.events && b in s'.events && a != b
        ensures s'.events[a].name != s'.events[b].name
      {
        assert s'.events[a].name == s.events[a].name;
        assert s'.events[b].name == s.events[b].name;
      }
      assert forall id :: id in s'.events ==> NoOversell(s'.events[id]);
    }
  }

  /** One purchase request: who asks, with what authentication, for what. */
  datatype PurchaseRequest = PurchaseRequest(auth: AuthResult, buyer: UserId, eventId: EventId, quantity: Option<int>)

  /** Serving `requests` one after another. */
  function RunPurchases(s: Store, requests: seq<PurchaseRequest>): (r: (seq<PurchaseOutcome>, Store))
    ensures |r.0| == |requests|
    decreases |requests|
  {
    if |requests| == 0 then ([], s)
    else
      var q := requests[0];
      var step := PurchaseTickets(s, q.auth, q.buyer, q.eventId, q.quantity);
      var rest := RunPurchases(step.next, requests[1..]);
      ([step.outcome] + rest.0, rest.1)
  }

  /** No sequence of purchases by existing users oversells any event, and after
      it every counter still equals the seats its tickets record. */
  lemma {:induction false} RunPurchasesPreservesValid(s: Store, requests: seq<PurchaseRequest>)
    requires Valid(s)
    requires forall i :: 0 <= i < |requests| ==> requests[i].buyer in s.users
    ensures Valid(RunPurchases(s, requests).1)
    ensures RunPurchases(s, requests).1.users == s.users
    decreases |requests|
  {
    if |requests| > 0 {
      var q := requests[0];
      var step := PurchaseTickets(s, q.auth, q.buyer, q.eventId, q.quantity);
      PurchasePreservesValid(s, q.auth, q.buyer, q.eventId, q.quantity);
      assert step.next.users == s.users;
      assert forall i :: 0 <= i < |requests[1..]| ==> requests[1..][i] == requests[i + 1];
      RunPurchasesPreservesValid(step.next, requests[1..]);
    }
  }

  // ---------------------------------------------------------------------------
  // create_event
  // ---------------------------------------------------------------------------

  /** Any role other than exactly "Admin" is refused with a 403 and nothing is created. */
  lemma CreateEventRoleGate(s: Store, role: string, name: Option<string>, date: Option<string>, total: Option<int>)
    requires role != "Admin"
    ensures var r := CreateEvent(s, Authenticated(OK, role), name, date, total);
      r.outcome == NotAdmin && r.next == s
      && CreateResponse(r.outcome) == Response(FORBIDDEN, Json("error", "Permissions not allowed"))
  {
  }

  /** A name already in use is refused with a 400 and nothing is created. */
  lemma CreateEventDuplicateName(s: Store, other: EventId, date: string, total: int)
    requires other in s.events
    ensures var r := CreateEvent(s, Authenticated(OK, "Admin"), Some(s.events[other].name), Some(date), Some(total));
      r.outcome == DuplicateName && r.next == s && CreateResponse(r.outcome).status == BAD_REQUEST
  {
  }

  /** Creating an event keeps every invariant; the new event gets a fresh id,
      has sold nothing and has no tickets. */
  lemma CreateEventPreservesValid(s: Store, auth: AuthResult, name: Option<string>, date: Option<string>, total: Option<int>)
    requires Valid(s)
    ensures var r := CreateEvent(s, auth, name, date, total);
      && Valid(r.next)
      && (r.outcome.Created? ==> r.outcome.id !in s.events && SoldFor(r.next.tickets, r.outcome.id) == 0)
  {
    var r := CreateEvent(s, auth, name, date, total);
    if r.outcome.Created? {
      var s' := r.next;
      var id := r.outcome.id;
      assert id == s.nextEventId;
      assert id !in s.events;
      assert forall i :: 0 <= i < |s.tickets| ==> s.tickets[i].event != id;
      SoldForAbsent(s.tickets, id);
      forall a, b | a in s'.events && b in s'.events && a != b
        ensures s'.events[a].name != s'.events[b].name
      {
        if a == id {
          assert b in s.events && s.events[b].name != name.value;
        } else if b == id {
          assert a in s.events && s.events[a].name != name.value;
        }
      }
      forall i | 0 <= i < |s'.tickets|
        ensures s'.tickets[i].event in s'.events
      {
        assert s'.tickets[i] == s.tickets[i];
      }
    }
  }

  /** A new event can be bought from at once, up to exactly its capacity. */
  lemma CreateThenPurchase(s: Store, name: string, date: string, total: int, buyer: UserId, q: int)
    requires Valid(s) && !NameTaken(s.events, name)
    requires 0 < q <= total
    ensures var c := CreateEvent(s, Authenticated(OK, "Admin"), Some(name), Some(date), Some(total));
      && c.outcome.Created?
      && var p := PurchaseTickets(c.next, Authenticated(OK, "User"), buyer, c.outcome.id, Some(q));
         p.outcome == Purchased(q) && p.next.events[c.outcome.id].ticketSold == q
  {
  }
}

=== FILE: wrappers.dfy ===
/** Optional values: the model's stand-in for Python's `None`. */
module Wrappers {

  datatype Option<+T> = None | Some(value: T) {

    /** Returns the value held in Some, or `default` when None. */
    function GetOr(default: T): T {
      match this
      case Some(v) => v
      case None => default
    }
  }
}
